=== FILE: README.md ===
# Trading 212 pie allocator, modelled in Dafny

This project models `PieAllocator`, the core of autot212. The allocator takes
holdings reported by a portfolio tracker and makes a Trading 212 "pie" (a
named basket of instruments with target weights) follow them. It:

- renames tracker symbols the broker lists under another ticker, then appends `_US_EQ`;
- collects the raw weights into a dictionary;
- rebalances that dictionary so the weights sum to exactly 1.0 at four decimals;
- finds or creates the pie by name;
- posts the allocation. When the broker rejects an instrument by ticker, it drops that key, re-normalises and posts again.

Modelling choices:

- **Weights are integers counting ten-thousandths.** `Allocation.Unit` = 10000 stands for 1.0. The raw `percentOfPortfolio` values are counted the same way, so 60% is 600000. `round(x, 4)` of a quotient is `Normalizer.Round`: the nearest integer of the exact quotient, and the even one at an exact half. This is the fixed-point stand-in for Python's `round` on a binary double, which can differ at exact decimal ties (see "## Left out"). With this encoding, "the weights sum to exactly 1.0" is a fact about integers.
- **Dictionaries are insertion-ordered sequences of distinct keys** (`Allocation.Alloc`), as Python dicts are. `d[k] = v` is `Put`: it overwrites in place or appends. `del d[k]` is `Remove`.
- **`random.choice` is an index oracle.** `Rebalance` takes the drawn index `pick`. The retry loop takes `randbelow: nat -> nat` with `randbelow(n) < n`. Every round has strictly fewer keys than the round before, so a function of the key count can stand for any sequence of draws.
- **The network is a sequence of responses.** The n-th request sent receives the n-th response. If the sequence runs out, the request got no answer; that is the exception `requests` would raise (`TransportError`). Every operation returns the requests it sent and the pauses it took (`Broker.Event`), and the responses it left unread.
- **Exceptions the source lets escape are `Faults.Fault` values.**
  - `ZeroDivisionError`: rebalancing a non-empty dictionary whose weights sum to 0.
  - `IndexError`: `random.choice` on an empty dictionary.
  - `MalformedBody`: a body of the wrong shape — a missing field the code indexes, a 200 body of the wrong JSON type, or a 400 body that is not a JSON object.
  - `AttributeError`: a created pie that is not the empty object `{}` yet has neither `id` nor `settings`.
- **`extract_ticker` follows the regular expression exactly.** `re.search(r'ticker (\S+)')` matches at the leftmost position where `"ticker "` is followed by a non-whitespace character. An earlier `"ticker "` that is followed by a whitespace character, or that ends the text, is skipped. `\S` is the complement of Python's `str.isspace`.

Behaviour of `t212.py` worth knowing before reading the contracts:

- **Rebalancing an empty dictionary raises IndexError.** The comprehension at t212.py:151 divides nothing, the residual is 1.0, and `random.choice([])` at t212.py:158 raises.
- **The update loop sends at most as many allocations as there are keys.** Each rejected instrument removes one key (t212.py:133). Once every key is gone, the next rebalance raises at t212.py:158 before any request is sent. The loop also raises when the keys left have zero total weight. Each round can take up to three requests, because of 429 retries.
- **An empty created pie ends the sync.** A creation answered 200 with the empty object `{}` makes `if not pie` (t212.py:182) return false, so no update is sent.
- **The residual can make a weight negative.** The residual absorbed by the drawn key is at most |keys|/2 ten-thousandths (`ResidualBound`). That can still push the drawn weight below zero: `ResidualMayTurnNegative` gives an input where the residual is -0.0001 and the drawn key's weight was 0.

## Model

| member | source | states |
|---|---|---|
| Symbols.MapSymbol | autot212/t212.py:94-114 | each of the ten overridden symbols (META→FB, HHH→HHC, BN→BAM, MAGN→GLT, PARA→CBS, KIND→KVSB, AXON→AAXN, DKNG→DEAC, UAA→UA, RUM→CFVI) maps to its replacement as listed in the table `Overrides`; every other symbol passes through unchanged |
| Symbols.MapSymbolExamples | autot212/t212.py:95-96 | META maps to FB, AAPL is unchanged, HHH is filed under HHC_US_EQ |
| Symbols.BuildItems | autot212/t212.py:91-117 | the raw dictionary has distinct keys; its key set is exactly the holdings' mapped symbols with `_US_EQ` appended; each key holds the weight of the last holding filed under it |
| Allocation.Put | autot212/t212.py:117 | dictionary assignment: the key now holds the new value, every other key keeps its value, the key set gains the key, and an existing key keeps its position |
| Allocation.Remove | autot212/t212.py:133 | `del`: the entry for that key is cut out and the others keep their order, so the key set loses exactly that key and the size drops by one. Every other key keeps its value, and the total drops by the removed weight. Removing an absent key changes nothing |
| Normalizer.Round | autot212/t212.py:151 | `round(n/d, 4)` in ten-thousandths, on the exact quotient: the result is within half a unit of the exact quotient, and is even when the quotient lies exactly half-way |
| Normalizer.RoundUnique | autot212/t212.py:151 | those two properties determine the rounded value uniquely |
| Normalizer.Rebalance | autot212/t212.py:143-161 | every successful result has the input's keys in the input's order and sums to exactly 1.0, whichever key is drawn. An input already summing to 1.0 comes back unchanged, with no adjustment. Otherwise every key except the drawn one holds `round(v/total, 4)`. An empty input raises IndexError; a non-empty zero-sum input raises ZeroDivisionError |
| Normalizer.ScaleError | autot212/t212.py:151 | rounding each quotient moves `total * sum(rounded)` at most `total/2` per entry away from `10000 * sum(weights)` |
| Normalizer.ScaledResidual | autot212/t212.py:151-155 | after normalising by its own total, the rounded weights miss 1.0 by at most half a ten-thousandth per key |
| Normalizer.ResidualBound | autot212/t212.py:153-159 | the drawn key ends within |keys|/2 ten-thousandths of its own rounded share |
| Normalizer.ResidualMayTurnNegative | autot212/t212.py:155-159 | normalising {A: 0, B: 1, C: 1, D: 5} with A drawn sends A as -0.0001 |
| TickerText.Contains | autot212/t212.py:128 | the substring test holds exactly when the fragment occurs at some position of the text |
| TickerText.ExtractTicker | autot212/t212.py:82-84 | nothing is returned exactly when the pattern `ticker (\S+)` matches nowhere. Otherwise the result is a non-empty, whitespace-free token. It follows the leftmost match, and the text ends or whitespace follows it |
| TickerText.ExtractTickerUnique | autot212/t212.py:82-84 | any maximal token after the leftmost match is the extracted ticker, so the contract above fixes the result |
| TickerText.ExtractTickerExample | autot212/t212.py:128-130 | the code "Instrument with ticker XYZ_US_EQ not supported" yields XYZ_US_EQ |
| TickerText.ExtractTickerNeedsToken | autot212/t212.py:83 | "ticker  XYZ" (two spaces) yields nothing |
| Broker.MakeRequest | autot212/t212.py:30-44 | at most three attempts, each sending the same request. It returns the first answer that is not a 429; all earlier answers were 429s, each followed by a pause of the given delay. After three 429s it returns the third. If the responses run out, they were all 429s and a transport error results |
| Broker.RateLimitedOnce | autot212/t212.py:34-40 | a 429 then a 200 yields the same result and leaves the same responses unread as an immediate 200, with one extra request and pause |
| Pies.GetExistingPies | autot212/t212.py:46-56 | one rate-limited listing request with a 30-second pause; a 200 yields the listed pies and any other status yields an empty list; a 200 whose body is not a list is `MalformedBody`, and a request that got no answer is that fault, with nothing listed |
| Pies.CreatePieResult | autot212/t212.py:58-80 | one rate-limited creation request; a 200 yields the created record and any other status yields nothing; a 200 whose body is not a pie record is `MalformedBody`, and a request that got no answer is that fault, with no pie |
| Pies.FindPie | autot212/t212.py:168-172 | a pie found by the lookup is one of the listed pies |
| Pies.FindPieFirstMatch | autot212/t212.py:165-172 | when each listed pie has an `id`, each detail fetch is answered once without a 429, and every 200 detail carries `settings.name`, the lookup returns the first pie whose detail is a 200 carrying the sought name. When none is, it returns nothing and has read exactly one answer per pie |
| Pies.GetOrCreatePie | autot212/t212.py:163-175 | a pie found in the listing is returned without any creation request; only when the lookup finds none is the pie created and the creation's result returned. A failed listing or lookup is the call's fault, after only the requests the listing and lookup sent |
| Pies.UpdateLoop | autot212/t212.py:119-141 | every allocation sent sums to 1.0 and has distinct keys. The first has the raw dictionary's keys. Each later one has exactly one key fewer than the one before, a strict subset of its keys. At most |keys| allocations are sent. No request is made, and the loop raises, exactly when the dictionary is empty or sums to zero |
| Pies.RejectedTickerDropped | autot212/t212.py:128-133 | suppose a 400's code contains "Instrument with ticker", and the leftmost `ticker \S+` match anywhere in that code names a key of the allocation. Then the loop goes on exactly as a loop over the same allocation less that key: same outcome, same later allocations, same requests and same unread answers. Its next round sends those keys re-normalised to 1.0, unless nothing with a non-zero total is left |
| Pies.RoundEnds | autot212/t212.py:126-141 | a 200 returns true. A 400 naming a ticker not in the allocation, with no ticker, or without the rejection text returns false. Any other status returns false. In each case no further request is made |
| Pies.UpdateAllocations | autot212/t212.py:86-141 | the allocations sent from the holdings have the loop's run shape: each sums to 1.0 with distinct keys, the first carries exactly the holdings' instrument keys, and each later one has one key fewer. At most as many allocations are sent as there are distinct keys |
| Pies.ResolvePieId | autot212/t212.py:186 | the pie's `id` when present, else `settings.id` (a missing one renders as the text None), and AttributeError when there is no settings object |
| Pies.SyncPieWithHoldings | autot212/t212.py:177-187 | a failed lookup or creation is the sync's fault, with no request after the lookup's. No pie, or an empty created object `{}`, yields false with no update request. A non-empty record without `id` or `settings` raises AttributeError, also with no update request. Otherwise, for a non-empty record with an id, the allocation update runs against the resolved id, after the lookup's requests, and its outcome is the sync's outcome |
| Pies.CreatedWhenUnlisted | autot212/t212.py:163-175 | with no pie listed, the lookup lists, creates, and returns the created record, leaving the later answers unread |
| Pies.EmptyCreatedSyncsNothing | autot212/t212.py:181-183 | a pie created as `{}` makes the sync return false after listing and creating, with no update request |
| Pies.GrowthScenario | autot212/t212.py:177-187 | META 60% and AAPL 40% synced to a new pie "Growth", whatever the draw: list, create, then one update with {FB_US_EQ: 0.6, AAPL_US_EQ: 0.4}, and the sync returns true |

## Left out

- HTTP, JSON decoding, the bearer-token header and `print` are not modelled. Responses are values of `Broker.Response` carrying an already decoded body. Diagnostics are dropped.
- `time.sleep` is recorded as a `Sleep` event carrying its delay; no clock is modelled.
- `get_instruments` (t212.py:18-28), `autot212/autopilot.py`, `autot212/main.py` and `setup.py` are not part of this model. They are I/O and command-line glue.
- Binary floating point is not modelled. Weights are exact ten-thousandths. Raw weights with more than four decimals are not representable, and the 1.0 test of the first branch is exact.
- The fixed fields of the pie creation body (dividend action, end date, goal, icon, the placeholder AAPL share) are not carried in `CreatePie`; only the name is.
- In-place renaming of the caller's holding records (t212.py:96) is not modelled; it does not affect the allocation.
- Pies.CreatePieResult: a 200 whose body is not a JSON object (a list, a number, text or null) is a `MalformedBody` fault at once. In the source such a body is returned as the pie. A false value (an empty list, empty text, 0 or null) then makes the sync return false; any other value raises when the sync reads the id. The empty object `{}` is modelled.
- Pies.GetExistingPies: a 200 whose body is not a list is a `MalformedBody` fault. In the source an empty JSON object would be iterated as no pies.
- Normalizer.Round: Python rounds the binary double nearest to `v/total`, which usually lies a little off an exact decimal tie. At such a tie the model rounds half to even on the exact quotient, so it can differ by one ten-thousandth. For example, `round(1/20000, 4)` is 0.0001, while `Round(10000, 20000)` is 0. Elsewhere they agree, unless floating-point error in the sum or the division moves the value across a half.
- Pies.UpdateLoop: the `code` field is taken to be text when present, and a 400 body that is not a JSON object is a `MalformedBody` fault.
- Pies.FindPie: its own contract states only membership. The first-match property is stated by `Pies.FindPieFirstMatch`, for streams that answer each detail fetch once and listings without the KeyError cases.
- Pies.FindPieFirstMatch: covers only streams that answer each detail fetch without rate limiting, where every listed pie has an `id` and every 200 detail carries `settings.name`. Retried fetches are covered by `Broker.MakeRequest` alone. A listed pie without `id` (t212.py:169), or a 200 detail without `settings.name` (t212.py:171), before the first match ends the lookup with `MalformedBody`; only `FindPie`'s body states that.
- Symbols.BuildItems: a holding without a `symbol` or `percentOfPortfolio` field is not modelled; the source raises KeyError there.
- Pie ids are kept as the text they render to in the endpoint path.

=== FILE: allocation.dfy ===
/**
 * The `instrumentShares` dictionary the allocator builds and sends: an
 * insertion-ordered map from instrument key to weight, as a Python dict is.
 * Weights are fixed-point numbers counting ten-thousandths, the four
 * decimal places the allocator rounds to, so `Unit` stands for 1.0.
 */
module Allocation {
  import opened Wrappers

  /** 1.0 in ten-thousandths. */
  const Unit: int := 10000

  /** One dictionary entry: instrument key and weight in ten-thousandths. */
  datatype Share = Share(key: string, weight: int)

  /** A dictionary as a sequence of entries in insertion order. */
  type Alloc = seq<Share>

  function Keys(a: Alloc): set<string> {
    set s | s in a :: s.key
  }

  /** The keys in dictionary order (what `list(d.keys())` gives). */
  function KeySeq(a: Alloc): seq<string> {
    seq(|a|, i requires 0 <= i < |a| => a[i].key)
  }

  /** No key occurs twice: every dictionary satisfies this. */
  predicate Distinct(a: Alloc) {
    forall i, j :: 0 <= i < j < |a| ==> a[i].key != a[j].key
  }

  /** `sum(d.values())`. */
  function Total(a: Alloc): int {
    if a == [] then 0 else a[0].weight + Total(a[1..])
  }

  /** The position of key `k`, if present (the first one). */
  function IndexOf(a: Alloc, k: string): (r: Option<nat>)
    ensures r.Some? ==> r.value < |a| && a[r.value].key == k
    ensures r.Some? ==> forall j :: 0 <= j < r.value ==> a[j].key != k
    ensures r.None? ==> forall j :: 0 <= j < |a| ==> a[j].key != k
  {
    if a == [] then None
    else if a[0].key == k then Some(0)
    else match IndexOf(a[1..], k)
      case Some(i) => Some(i + 1)
      case None => None
  }

  /** `d.get(k)`: the weight stored under `k`, if any. */
  function Lookup(a: Alloc, k: string): (r: Option<int>)
    ensures r.Some? <==> k in Keys(a)
  {
    match IndexOf(a, k)
    case Some(i) => Some(a[i].weight)
    case None => None
  }

  /** Two dictionaries with the same keys in the same places find every key at the same place. */
  lemma IndexOfSameKeys(a: Alloc, b: Alloc, k: string)
    requires KeySeq(a) == KeySeq(b)
    ensures IndexOf(a, k) == IndexOf(b, k)
  {
    assert |a| == |KeySeq(a)| == |b|;
    assert forall j :: 0 <= j < |a| ==> a[j].key == KeySeq(a)[j] == b[j].key;
  }

  /** Same keys in the same order: same key set, and distinctness carries over. */
  lemma SameKeySeq(a: Alloc, b: Alloc)
    requires KeySeq(a) == KeySeq(b)
    ensures Keys(a) == Keys(b)
    ensures Distinct(a) ==> Distinct(b)
  {
    assert |a| == |KeySeq(a)| == |b|;
    assert forall j :: 0 <= j < |a| ==> a[j].key == KeySeq(a)[j] == b[j].key;
    forall k | k in Keys(a) ensures k in Keys(b) {
      var s :| s in a && s.key == k;
      var j :| 0 <= j < |a| && a[j] == s;
      assert b[j].key == k;
    }
    forall k | k in Keys(b) ensures k in Keys(a) {
      var s :| s in b && s.key == k;
      var j :| 0 <= j < |b| && b[j] == s;
      assert a[j].key == k;
    }
  }

  /** `d[k] = v`: overwrite in place when `k` is present, append otherwise. */
  function Put(a: Alloc, k: string, v: int): (r: Alloc)
    requires Distinct(a)
    ensures Distinct(r)
    ensures Keys(r) == Keys(a) + {k}
    ensures Lookup(r, k) == Some(v)
    ensures forall k' :: k' != k ==> Lookup(r, k') == Lookup(a, k')
    ensures k in Keys(a) ==> KeySeq(r) == KeySeq(a)
    ensures k !in Keys(a) ==> KeySeq(r) == KeySeq(a) + [k]
  {
    match IndexOf(a, k)
    case Some(i) =>
      var r := a[i := Share(k, v)];
      assert KeySeq(r) == KeySeq(a);
      SameKeySeq(a, r);
      forall k' | k' != k ensures Lookup(r, k') == Lookup(a, k') {
        IndexOfSameKeys(a, r, k');
      }
      r
    case None =>
      var r := a + [Share(k, v)];
      assert KeySeq(r) == KeySeq(a) + [k];
      AppendKeys(a, Share(k, v));
      r
  }

  /** Appending an entry adds its key to the key set. */
  lemma AppendKeys(a: Alloc, s: Share)
    ensures Keys(a + [s]) == Keys(a) + {s.key}
  {
    var r := a + [s];
    forall k' | k' in Keys(r) ensures k' in Keys(a) + {s.key} {
      var t :| t in r && t.key == k';
      if t != s {
        var j :| 0 <= j < |r| && r[j] == t;
        assert a[j] == t;
      }
    }
  }

  /** `del d[k]`: drop the entry for `k`, keeping the others in order. */
  function Remove(a: Alloc, k: string): (r: Alloc)
    requires Distinct(a)
    ensures Without(a, k, r)
    decreases |a|
  {
    if a == [] then []
    else if a[0].key == k then
      RemoveHead(a, k);
      a[1..]
    else
      var rest := Remove(a[1..], k);
      RemoveCons(a, k, rest);
      [a[0]] + rest
  }

  /**
   * `r` is `a` without the entry for `k`: the entry is cut out and the others
   * keep their order, and the remaining dictionary keeps the facts `Keeps` lists.
   */
  ghost predicate Without(a: Alloc, k: string, r: Alloc) {
    Cut(a, k, r) && Keeps(a, k, r)
  }

  /** `r` is `a` with the entry for `k`, if any, cut out of its place. */
  ghost predicate Cut(a: Alloc, k: string, r: Alloc) {
    match IndexOf(a, k)
    case Some(i) => r == a[..i] + a[i + 1..]
    case None => r == a
  }

  /**
   * A dictionary whose key set has lost exactly `k` (one entry fewer when `k`
   * was present, nothing changed when it was not), whose total has dropped by
   * the weight `k` held, and which agrees with `a` on every other key.
   */
  ghost predicate Keeps(a: Alloc, k: string, r: Alloc) {
    && Distinct(r)
    && Keys(r) == Keys(a) - {k}
    && (k in Keys(a) ==> |r| + 1 == |a|)
    && (k !in Keys(a) ==> r == a)
    && Total(r) == Total(a) - Lookup(a, k).GetOr(0)
    && (forall k' :: k' != k ==> Lookup(r, k') == Lookup(a, k'))
  }

  /** Dropping the first entry removes its key. */
  lemma RemoveHead(a: Alloc, k: string)
    requires Distinct(a) && a != [] && a[0].key == k
    ensures Without(a, k, a[1..])
  {
    CutHead(a, k);
    KeepsHead(a, k);
  }

  /** Dropping the first entry cuts it out of its place. */
  lemma CutHead(a: Alloc, k: string)
    requires a != [] && a[0].key == k
    ensures Cut(a, k, a[1..])
  {
    assert a[..0] + a[1..] == a[1..];
  }

  /** Dropping the first entry keeps the facts about the other keys. */
  lemma KeepsHead(a: Alloc, k: string)
    requires Distinct(a) && a != [] && a[0].key == k
    ensures Keeps(a, k, a[1..])
  {
    assert a == [a[0]] + a[1..];
    assert Keys(a) == {k} + Keys(a[1..]);
    assert k !in Keys(a[1..]);
    forall k' | k' != k ensures Lookup(a[1..], k') == Lookup(a, k') {
      LookupCons(a[0], a[1..], k');
    }
  }

  /** Removing a key from the tail removes it from the whole when the head holds another key. */
  lemma RemoveCons(a: Alloc, k: string, rest: Alloc)
    requires Distinct(a) && a != [] && a[0].key != k
    requires Without(a[1..], k, rest)
    ensures Without(a, k, [a[0]] + rest)
  {
    CutCons(a, k, rest);
    KeepsCons(a, k, rest);
  }

  /** A cut in the tail is a cut in the whole, one place further on. */
  lemma CutCons(a: Alloc, k: string, rest: Alloc)
    requires a != [] && a[0].key != k
    requires Cut(a[1..], k, rest)
    ensures Cut(a, k, [a[0]] + rest)
  {
    match IndexOf(a[1..], k)
    case Some(i) =>
      assert [a[0]] + (a[1..][..i] + a[1..][i + 1..]) == a[..i + 1] + a[i + 2..];
    case None =>
      assert a == [a[0]] + a[1..];
  }

  /** The facts about the other keys carry over from the tail to the whole. */
  lemma KeepsCons(a: Alloc, k: string, rest: Alloc)
    requires Distinct(a) && a != [] && a[0].key != k
    requires Keeps(a[1..], k, rest)
    ensures Keeps(a, k, [a[0]] + rest)
  {
    assert a == [a[0]] + a[1..];
    ConsFacts(a[0], a[1..]);
    ConsFacts(a[0], rest);
    LookupCons(a[0], a[1..], k);
    LookupsAgree(a[0], rest, a[1..], k);
  }

  /** Keys, total and distinctness of an entry followed by a dictionary. */
  lemma ConsFacts(s: Share, b: Alloc)
    ensures Keys([s] + b) == {s.key} + Keys(b)
    ensures Total([s] + b) == s.weight + Total(b)
    ensures Distinct([s] + b) <==> Distinct(b) && s.key !in Keys(b)
  {
    var r := [s] + b;
    assert r[1..] == b;
    assert forall j :: 0 <= j < |b| ==> r[j + 1] == b[j];
    if Distinct(r) {
      forall t | t in b ensures t.key != s.key {
        var j :| 0 <= j < |b| && b[j] == t;
        assert r[j + 1] == t;
      }
    }
  }

  /** Prefixing the same entry keeps two dictionaries agreeing on every key but `k`. */
  lemma LookupsAgree(s: Share, b: Alloc, c: Alloc, k: string)
    requires forall k' :: k' != k ==> Lookup(b, k') == Lookup(c, k')
    ensures forall k' :: k' != k ==> Lookup([s] + b, k') == Lookup([s] + c, k')
  {
    forall k' | k' != k ensures Lookup([s] + b, k') == Lookup([s] + c, k') {
      LookupCons(s, b, k');
      LookupCons(s, c, k');
    }
  }

  /** Looking a key up in an entry followed by a dictionary. */
  lemma LookupCons(s: Share, a: Alloc, k: string)
    ensures Lookup([s] + a, k) == if s.key == k then Some(s.weight) else Lookup(a, k)
  {
    var b := [s] + a;
    assert b[1..] == a;
  }

  /** Replacing one entry changes the total by exactly the change of its weight. */
  lemma {:induction false} TotalUpdate(a: Alloc, i: nat, s: Share)
    requires i < |a|
    ensures Total(a[i := s]) == Total(a) - a[i].weight + s.weight
    decreases |a|
  {
    if i == 0 {
      assert a[i := s][1..] == a[1..];
    } else {
      TotalUpdate(a[1..], i - 1, s);
      assert a[i := s][1..] == a[1..][i - 1 := s];
    }
  }
}

=== FILE: broker.dfy ===
/**
 * The broker's HTTP interface as the allocator sees it, and `_make_request`.
 * The network is a stream of responses: the n-th request the allocator sends
 * receives the n-th response, and a stream that runs out stands for a request
 * that never got an answer.
 */
module Broker {
  import opened Wrappers
  import opened Faults
  import opened Allocation

  /** The `settings` object of a pie record. */
  datatype Settings = Settings(id: Option<string>, name: Option<string>)

  /**
   * A pie as the broker describes it: the fields the allocator reads, and
   * whether the JSON object carries any other field. An object with none of
   * these is `{}`, which Python treats as false.
   */
  datatype PieRecord = PieRecord(id: Option<string>, settings: Option<Settings>, otherFields: bool) {
    predicate IsEmpty() {
      id.None? && settings.None? && !otherFields
    }
  }

  /** A decoded response body. */
  datatype Body =
      /** A JSON array of pie summaries (`GET /equity/pies`). */
    | PieList(pies: seq<PieRecord>)
      /** A JSON object describing one pie (pie detail, created pie). */
    | Record(pie: PieRecord)
      /** A JSON error object, with its `code` field when present. */
    | ErrorCode(code: Option<string>)
      /** Anything else. */
    | Unparsed

  datatype Response = Response(status: int, body: Body)

  /** The requests the allocator sends; the pie creation body is fixed apart from the name. */
  datatype Request =
    | ListPies
    | FetchPie(id: string)
    | CreatePie(name: string)
    | UpdatePie(id: string, shares: Alloc)

  /** What the broker observes: a request, or the pause before the next attempt. */
  datatype Event = Send(req: Request) | Sleep(seconds: nat)

  /** The outcome of a step, the events it caused and the responses it left unread. */
  datatype Exchange<T> = Exchange(out: Result<T, Fault>, log: seq<Event>, rest: seq<Response>)

  const Success: int := 200
  const BadRequest: int := 400
  const TooManyRequests: int := 429
  const MaxAttempts: nat := 3

  /** `k` rate-limited attempts: each request followed by its pause. */
  function Retried(req: Request, delay: nat, k: nat): (r: seq<Event>)
    ensures |r| == 2 * k
    ensures forall i :: 0 <= i < k ==> r[2 * i] == Send(req) && r[2 * i + 1] == Sleep(delay)
  {
    if k == 0 then []
    else
      var rest := Retried(req, delay, k - 1);
      var r := [Send(req), Sleep(delay)] + rest;
      forall i | 1 <= i < k ensures r[2 * i] == Send(req) && r[2 * i + 1] == Sleep(delay) {
        var j := i - 1;
        assert rest[2 * j] == Send(req) && rest[2 * j + 1] == Sleep(delay);
        assert r[2 * i] == rest[2 * j] && r[2 * i + 1] == rest[2 * j + 1];
      }
      r
  }

  /** The answers that make `_make_request` retry. */
  predicate AllRateLimited(rs: seq<Response>) {
    forall i :: 0 <= i < |rs| ==> rs[i].status == TooManyRequests
  }

  /**
   * What `_make_request` promises when the broker answered: the answer is the
   * first one that is not a 429, or the last allowed 429, and every attempt
   * before it was rate-limited and followed by a pause.
   */
  predicate Answered(req: Request, delay: nat, net: seq<Response>, left: nat, x: Exchange<Response>)
    requires x.out.Ok?
  {
    var used := |net| - |x.rest|;
    && 1 <= used <= left
    && x.rest == net[used..]
    && x.out.value == net[used - 1]
    && AllRateLimited(net[..used - 1])
    && (x.out.value.status == TooManyRequests ==> used == left)
    && x.log == Retried(req, delay, used - 1)
                + (if x.out.value.status == TooManyRequests then [Send(req), Sleep(delay)] else [Send(req)])
  }

  /** What `_make_request` promises when the responses ran out: all were 429s, and the last request went unanswered. */
  predicate Unanswered(req: Request, delay: nat, net: seq<Response>, left: nat, x: Exchange<Response>)
    requires x.out.Err?
  {
    && x.out.error == TransportError
    && |net| < left && AllRateLimited(net) && x.rest == []
    && x.log == Retried(req, delay, |net|) + [Send(req)]
  }

  /**
   * `_make_request`: send `req`, retrying after `delay` seconds while the
   * broker answers 429, for at most three attempts. It returns the first
   * answer that is not a 429, or the third 429.
   */
  function MakeRequest(req: Request, delay: nat, net: seq<Response>): (x: Exchange<Response>)
    ensures x.out.Ok? ==> Answered(req, delay, net, MaxAttempts, x)
    ensures x.out.Err? ==> Unanswered(req, delay, net, MaxAttempts, x)
  {
    Attempt(req, delay, net, MaxAttempts)
  }

  /** The attempts still allowed are `left`. */
  function Attempt(req: Request, delay: nat, net: seq<Response>, left: nat): (x: Exchange<Response>)
    requires 1 <= left <= MaxAttempts
    ensures x.out.Ok? ==> Answered(req, delay, net, left, x)
    ensures x.out.Err? ==> Unanswered(req, delay, net, left, x)
    decreases left
  {
    if net == [] then Exchange(Err(TransportError), [Send(req)], [])
    else
      var r := net[0];
      if r.status == Success then Exchange(Ok(r), [Send(req)], net[1..])
      else if r.status == TooManyRequests then
        if left == 1 then Exchange(Ok(r), [Send(req), Sleep(delay)], net[1..])
        else
          var x := Attempt(req, delay, net[1..], left - 1);
          RetryStep(req, delay, net, left, x);
          Exchange(x.out, [Send(req), Sleep(delay)] + x.log, x.rest)
      else Exchange(Ok(r), [Send(req)], net[1..])
  }

  /** A 429 followed by whatever the remaining attempts produce. */
  lemma RetryStep(req: Request, delay: nat, net: seq<Response>, left: nat, x: Exchange<Response>)
    requires 2 <= left && net != [] && net[0].status == TooManyRequests
    requires x.out.Ok? ==> Answered(req, delay, net[1..], left - 1, x)
    requires x.out.Err? ==> Unanswered(req, delay, net[1..], left - 1, x)
    ensures var y := Exchange(x.out, [Send(req), Sleep(delay)] + x.log, x.rest);
      && (y.out.Ok? ==> Answered(req, delay, net, left, y))
      && (y.out.Err? ==> Unanswered(req, delay, net, left, y))
  {
    if x.out.Ok? {
      var used := |net| - |x.rest|;
      assert net[..used - 1] == [net[0]] + net[1..][..used - 2];
      assert net[used..] == net[1..][used - 1..];
    } else {
      assert net == [net[0]] + net[1..];
    }
  }

  /** A 429 then a 200 ends as an immediate 200 does, after one pause. */
  lemma RateLimitedOnce(req: Request, delay: nat, limited: Response, ok: Response, tail: seq<Response>)
    requires limited.status == TooManyRequests && ok.status == Success
    ensures MakeRequest(req, delay, [limited, ok] + tail).out == MakeRequest(req, delay, [ok] + tail).out == Ok(ok)
    ensures MakeRequest(req, delay, [limited, ok] + tail).rest == MakeRequest(req, delay, [ok] + tail).rest == tail
    ensures MakeRequest(req, delay, [limited, ok] + tail).log == [Send(req), Sleep(delay)] + MakeRequest(req, delay, [ok] + tail).log
  {
    assert ([limited, ok] + tail)[1..] == [ok] + tail;
    assert ([ok] + tail)[1..] == tail;
  }
}

=== FILE: normalizer.dfy ===
/**
 * `rebalance_pie_items`: scale the weights so they sum to 1.0, round each to
 * four decimals and push the rounding residual onto one randomly chosen key.
 * With weights counted in ten-thousandths the exact-sum guarantee is a fact
 * about integers rather than about binary floating point.
 */
module Normalizer {
  import opened Wrappers
  import opened Faults
  import opened Allocation

  function Abs(x: int): nat {
    if x < 0 then -x else x
  }

  /**
   * The fixed-point stand-in for Python's `round` on a quotient: the integer
   * nearest to the exact quotient n / d, and the even one of the two when
   * n / d lies exactly half-way.
   */
  function Round(n: int, d: int): (r: int)
    requires d != 0
    ensures 2 * Abs(r * d - n) <= Abs(d)
    ensures 2 * Abs(r * d - n) == Abs(d) ==> r % 2 == 0
    decreases if d < 0 then 1 else 0
  {
    if d < 0 then
      var r := Round(-n, -d);
      Negate(r, d, n);
      r
    else
      var q := n / d;
      var m := n % d;
      NextMultiple(n, d, q, m);
      if 2 * m < d then q
      else if 2 * m > d then q + 1
      else if q % 2 == 0 then q
      else q + 1
  }

  /** Negating both operands leaves the distance to the quotient unchanged in size. */
  lemma Negate(r: int, d: int, n: int)
    ensures Abs(r * d - n) == Abs(r * (-d) - (-n))
  {
    assert r * (-d) == -(r * d);
  }

  /** The distances from `n` to the multiples of `d` just below and above it. */
  lemma NextMultiple(n: int, d: int, q: int, m: int)
    requires n == q * d + m
    ensures q * d - n == -m && (q + 1) * d - n == d - m
  {
    Split(d, q, 1);
  }

  /** The two properties of `Round` single out one integer. */
  lemma RoundUnique(n: int, d: int, x: int)
    requires d != 0
    requires 2 * Abs(x * d - n) <= Abs(d)
    requires 2 * Abs(x * d - n) == Abs(d) ==> x % 2 == 0
    ensures x == Round(n, d)
  {
    var r := Round(n, d);
    var ex := x * d - n;
    var er := r * d - n;
    assert (x - r) * d == ex - er by { Distrib(x, r, d); }
    if x != r {
      AbsMul(x - r, d);
      AtLeastOnce(Abs(x - r), Abs(d));
      // |x - r| * |d| <= |ex| + |er| <= |d| forces both to sit exactly half-way
      assert Abs(ex - er) <= Abs(ex) + Abs(er);
      assert 2 * Abs(ex) == Abs(d) && 2 * Abs(er) == Abs(d);
      assert Abs(x - r) * Abs(d) == Abs(d);
      OnlyOnce(Abs(x - r), Abs(d));
      // x and r are both even yet one apart
      assert false;
    }
  }

  lemma Distrib(x: int, y: int, z: int)
    ensures (x - y) * z == x * z - y * z
  {
  }

  lemma AtLeastOnce(g: nat, k: nat)
    requires g >= 1
    ensures g * k >= k
  {
    assert g * k == (g - 1) * k + k;
  }

  lemma OnlyOnce(g: nat, k: nat)
    requires k > 0 && g * k == k
    ensures g == 1
  {
  }

  lemma AbsMul(x: int, y: int)
    ensures Abs(x * y) == Abs(x) * Abs(y)
  {
    if x < 0 && y >= 0 {
      assert x * y == -((-x) * y);
    } else if x >= 0 && y < 0 {
      assert x * y == -(x * (-y));
    } else if x < 0 && y < 0 {
      assert x * y == (-x) * (-y);
    }
  }

  /** `round(v / total, 4)` for every entry, in ten-thousandths. */
  function Scale(a: Alloc, total: int): (r: Alloc)
    requires total != 0
    ensures |r| == |a| && KeySeq(r) == KeySeq(a)
    ensures forall i :: 0 <= i < |a| ==> r[i].weight == Round(a[i].weight * Unit, total)
  {
    var r := seq(|a|, i requires 0 <= i < |a| => Share(a[i].key, Round(a[i].weight * Unit, total)));
    assert KeySeq(r) == KeySeq(a);
    r
  }

  /**
   * The rebalanced allocation. `pick` is the index `random.choice` draws among
   * the keys; it matters only when a residual is left after rounding.
   */
  function Rebalance(a: Alloc, pick: nat): (r: Result<Alloc, Fault>)
    requires a == [] || pick < |a|
    ensures a == [] ==> r == Err(IndexError)
    ensures a != [] && Total(a) == 0 ==> r == Err(ZeroDivisionError)
    ensures a != [] && Total(a) != 0 ==> r.Ok?
    ensures r.Ok? ==> KeySeq(r.value) == KeySeq(a) && Keys(r.value) == Keys(a)
    ensures r.Ok? ==> Total(r.value) == Unit
    ensures Total(a) == Unit ==> r == Ok(a)
    ensures r.Ok? && Total(a) != Unit ==>
      forall i :: 0 <= i < |a| && i != pick ==> r.value[i].weight == Round(a[i].weight * Unit, Total(a))
  {
    var total := Total(a);
    if total == Unit then
      // round(v, 4) leaves a value already counted in ten-thousandths unchanged
      Ok(a)
    else if a == [] then
      // the comprehension over no entries divides nothing; random.choice([]) raises
      Err(IndexError)
    else if total == 0 then
      Err(ZeroDivisionError)
    else
      var scaled := Scale(a, total);
      SameKeySeq(a, scaled);
      var difference := Unit - Total(scaled);
      if difference != 0 then
        var adjusted := scaled[pick := Share(scaled[pick].key, scaled[pick].weight + difference)];
        TotalUpdate(scaled, pick, adjusted[pick]);
        assert KeySeq(adjusted) == KeySeq(scaled);
        SameKeySeq(a, adjusted);
        Ok(adjusted)
      else
        Ok(scaled)
  }

  /**
   * Rounding every entry moves the scaled total by at most half a
   * ten-thousandth per entry: |total * sum(rounded) - Unit * sum(a)| <= |a| * |total| / 2.
   */
  lemma {:induction false} ScaleError(a: Alloc, total: int)
    requires total != 0
    ensures 2 * Abs(total * Total(Scale(a, total)) - Unit * Total(a)) <= |a| * Abs(total)
    decreases |a|
  {
    if a != [] {
      var s := Scale(a, total);
      assert s[1..] == Scale(a[1..], total);
      ScaleError(a[1..], total);
      StepBound(total, s[0].weight, Total(s[1..]), a[0].weight, Total(a[1..]), |a[1..]|);
    }
  }

  /** One more rounded entry adds at most half a unit of `total` to the error. */
  lemma StepBound(t: int, w: int, st: int, x: int, at: int, n: nat)
    requires t != 0
    requires 2 * Abs(w * t - x * Unit) <= Abs(t)
    requires 2 * Abs(t * st - Unit * at) <= n * Abs(t)
    ensures 2 * Abs(t * (w + st) - Unit * (x + at)) <= (n + 1) * Abs(t)
  {
    Split(t, w, st);
    Split(Abs(t), n, 1);
    assert t * (w + st) - Unit * (x + at) == (w * t - x * Unit) + (t * st - Unit * at);
  }

  lemma Split(x: int, y: int, z: int)
    ensures x * (y + z) == y * x + x * z
  {
  }

  /**
   * The residual added to the chosen key is at most |a| / 2 ten-thousandths:
   * the chosen weight ends within that distance of its own rounded share.
   */
  lemma ResidualBound(a: Alloc, pick: nat)
    requires pick < |a| && Total(a) != 0 && Total(a) != Unit
    ensures 2 * Abs(Rebalance(a, pick).value[pick].weight - Round(a[pick].weight * Unit, Total(a))) <= |a|
  {
    var scaled := Scale(a, Total(a));
    ScaledResidual(a);
    assert Rebalance(a, pick).value[pick].weight == scaled[pick].weight + (Unit - Total(scaled));
  }

  /** Scaling by the allocation's own total leaves a residual of at most |a| / 2 ten-thousandths. */
  lemma ScaledResidual(a: Alloc)
    requires Total(a) != 0
    ensures 2 * Abs(Unit - Total(Scale(a, Total(a)))) <= |a|
  {
    ScaleError(a, Total(a));
    FactorOut(Total(a), Total(Scale(a, Total(a))), |a|);
  }

  lemma FactorOut(total: int, sum: int, n: nat)
    requires total != 0 && 2 * Abs(total * sum - Unit * total) <= n * Abs(total)
    ensures 2 * Abs(Unit - sum) <= n
  {
    assert total * sum - Unit * total == total * (sum - Unit);
    DivideOut(total, sum - Unit, n);
  }

  lemma DivideOut(t: int, e: int, n: nat)
    requires t != 0 && 2 * Abs(t * e) <= n * Abs(t)
    ensures 2 * Abs(e) <= n
  {
    AbsMul(t, e);
    assert (2 * Abs(e)) * Abs(t) == 2 * (Abs(t) * Abs(e));
    Cancel(2 * Abs(e), n, Abs(t));
  }

  lemma Cancel(x: nat, y: nat, k: nat)
    requires k > 0 && x * k <= y * k
    ensures x <= y
  {
    if x > y {
      assert x * k - y * k == (x - y) * k;
      AtLeastOnce(x - y, k);
    }
  }

  /**
   * The residual can drive the chosen weight below zero: normalising
   * {A: 0, B: 1, C: 1, D: 5} rounds B, C and D up, leaving a residual of
   * -0.0001, and if A is drawn it is sent as -0.0001.
   */
  lemma ResidualMayTurnNegative()
    ensures Rebalance([Share("A_US_EQ", 0), Share("B_US_EQ", 1), Share("C_US_EQ", 1), Share("D_US_EQ", 5)], 0)
         == Ok([Share("A_US_EQ", -1), Share("B_US_EQ", 1429), Share("C_US_EQ", 1429), Share("D_US_EQ", 7143)])
  {
    var a := [Share("A_US_EQ", 0), Share("B_US_EQ", 1), Share("C_US_EQ", 1), Share("D_US_EQ", 5)];
    assert Total(a[3..]) == 5;
    assert Total(a[2..]) == 6;
    assert Total(a[1..]) == 7;
    assert Total(a) == 7;
    RoundUnique(0, 7, 0);
    RoundUnique(10000, 7, 1429);
    RoundUnique(50000, 7, 7143);
    var scaled := Scale(a, 7);
    assert scaled[0] == Share("A_US_EQ", 0);
    assert scaled[1] == Share("B_US_EQ", 1429);
    assert scaled[2] == Share("C_US_EQ", 1429);
    assert scaled[3] == Share("D_US_EQ", 7143);
    assert scaled == [Share("A_US_EQ", 0), Share("B_US_EQ", 1429), Share("C_US_EQ", 1429), Share("D_US_EQ", 7143)];
    assert Total(scaled[3..]) == 7143;
    assert Total(scaled[2..]) == 8572;
    assert Total(scaled[1..]) == 10001;
    assert Total(scaled) == 10001;
    var adjusted := scaled[0 := Share("A_US_EQ", 0 + (Unit - 10001))];
    assert Rebalance(a, 0) == Ok(adjusted);
    assert adjusted == [Share("A_US_EQ", -1), Share("B_US_EQ", 1429), Share("C_US_EQ", 1429), Share("D_US_EQ", 7143)];
  }
}

=== FILE: pies.dfy ===
/**
 * The broker-facing operations of `PieAllocator`: pie lookup and creation,
 * the rejection-driven allocation update loop, and the sync that chains them.
 */
module Pies {
  import opened Wrappers
  import opened Faults
  import opened Allocation
  import opened Normalizer
  import opened Symbols
  import opened TickerText
  import opened Broker

  /** The retry pauses, in seconds, the source passes at each call site. */
  const ListDelay: nat := 30
  const PieDelay: nat := 5

  /** The error code fragment that marks a rejected instrument. */
  const RejectedInstrument: string := "Instrument with ticker"

  /** Python renders a missing pie id as this text in the endpoint path. */
  const NoneText: string := "None"

  /** An outcome that failed before any value was produced, keeping the log and the unread responses. */
  function Fail<T, U>(x: Exchange<T>): (y: Exchange<U>)
    requires x.out.Err?
    ensures y.out == Err(x.out.error) && y.log == x.log && y.rest == x.rest
  {
    Exchange(Err(x.out.error), x.log, x.rest)
  }

  /** `get_existing_pies`: the pie summaries, or none when the broker refuses. */
  function GetExistingPies(net: seq<Response>): (x: Exchange<seq<PieRecord>>)
    ensures var m := MakeRequest(ListPies, ListDelay, net);
      && x.log == m.log && x.rest == m.rest
      && (m.out.Err? ==> x.out == Err(m.out.error))
      && (m.out.Ok? && m.out.value.status != Success ==> x.out == Ok([]))
      && (m.out.Ok? && m.out.value.status == Success && m.out.value.body.PieList? ==> x.out == Ok(m.out.value.body.pies))
      && (m.out.Ok? && m.out.value.status == Success && !m.out.value.body.PieList? ==> x.out == Err(MalformedBody))
  {
    var m := MakeRequest(ListPies, ListDelay, net);
    if m.out.Err? then Fail(m)
    else if m.out.value.status != Success then Exchange(Ok([]), m.log, m.rest)
    else match m.out.value.body
      case PieList(pies) => Exchange(Ok(pies), m.log, m.rest)
      case _ => Exchange(Err(MalformedBody), m.log, m.rest)
  }

  /** `create_pie`, its result only: the created record, or nothing when the broker refuses. */
  function CreatePieResult(name: string, net: seq<Response>): (x: Exchange<Option<PieRecord>>)
    ensures var m := MakeRequest(CreatePie(name), PieDelay, net);
      && x.log == m.log && x.rest == m.rest
      && (m.out.Err? ==> x.out == Err(m.out.error))
      && (m.out.Ok? && m.out.value.status != Success ==> x.out == Ok(None))
      && (m.out.Ok? && m.out.value.status == Success && m.out.value.body.Record? ==> x.out == Ok(Some(m.out.value.body.pie)))
      && (m.out.Ok? && m.out.value.status == Success && !m.out.value.body.Record? ==> x.out == Err(MalformedBody))
  {
    var m := MakeRequest(CreatePie(name), PieDelay, net);
    if m.out.Err? then Fail(m)
    else if m.out.value.status != Success then Exchange(Ok(None), m.log, m.rest)
    else match m.out.value.body
      case Record(pie) => Exchange(Ok(Some(pie)), m.log, m.rest)
      case _ => Exchange(Err(MalformedBody), m.log, m.rest)
  }

  /** The pie name in a detail body, when the body has one. */
  function DetailName(b: Body): Option<string> {
    if b.Record? && b.pie.settings.Some? then b.pie.settings.value.name else None
  }

  /** A detail answer names the sought pie. */
  predicate Names(r: Response, name: string) {
    r.status == Success && DetailName(r.body) == Some(name)
  }

  /** The loop of `get_or_create_pie` over the listed pies: the first whose detail names the pie. */
  function FindPie(name: string, pies: seq<PieRecord>, net: seq<Response>): (x: Exchange<Option<PieRecord>>)
    ensures x.out.Ok? && x.out.value.Some? ==> x.out.value.value in pies
    decreases |pies|
  {
    if pies == [] then Exchange(Ok(None), [], net)
    else
      var pie := pies[0];
      if pie.id.None? then Exchange(Err(MalformedBody), [], net)
      else
        var m := MakeRequest(FetchPie(pie.id.value), PieDelay, net);
        if m.out.Err? then Fail(m)
        else
          var r := m.out.value;
          if r.status == Success && DetailName(r.body).None? then Exchange(Err(MalformedBody), m.log, m.rest)
          else if Names(r, name) then Exchange(Ok(Some(pie)), m.log, m.rest)
          else
            var x := FindPie(name, pies[1..], m.rest);
            Exchange(x.out, m.log + x.log, x.rest)
  }

  /** `get_or_create_pie`: the first listed pie with the name, otherwise a newly created one. */
  function GetOrCreatePie(name: string, net: seq<Response>): (x: Exchange<Option<PieRecord>>)
    ensures var listed := GetExistingPies(net);
      listed.out.Err? ==> x.out == Err(listed.out.error) && x.log == listed.log
    ensures var listed := GetExistingPies(net);
      listed.out.Ok? ==>
        var found := FindPie(name, listed.out.value, listed.rest);
        && (found.out.Err? ==> x.out == Err(found.out.error) && x.log == listed.log + found.log)
        && (found.out.Ok? && found.out.value.Some? ==> x.out == found.out && x.log == listed.log + found.log)
        && (found.out == Ok(None) ==>
              var created := CreatePieResult(name, found.rest);
              x.out == created.out && x.log == listed.log + found.log + created.log)
  {
    var listed := GetExistingPies(net);
    if listed.out.Err? then Fail(listed)
    else
      var found := FindPie(name, listed.out.value, listed.rest);
      if found.out.Err? then Exchange(Err(found.out.error), listed.log + found.log, found.rest)
      else if found.out.value.Some? then Exchange(found.out, listed.log + found.log, found.rest)
      else
        var created := CreatePieResult(name, found.rest);
        Exchange(created.out, listed.log + found.log + created.log, created.rest)
  }

  /** The index of the first answer that names the pie. */
  function FirstNaming(answers: seq<Response>, name: string): (r: Option<nat>)
    ensures r.Some? ==> r.value < |answers| && Names(answers[r.value], name)
    ensures r.Some? ==> forall k :: 0 <= k < r.value ==> !Names(answers[k], name)
    ensures r.None? ==> forall k :: 0 <= k < |answers| ==> !Names(answers[k], name)
  {
    if answers == [] then None
    else if Names(answers[0], name) then Some(0)
    else match FirstNaming(answers[1..], name)
      case Some(i) => Some(i + 1)
      case None => None
  }

  /** Every listed pie has an id, and its detail fetch is answered without rate limiting by a well-formed body. */
  predicate PlainDetails(pies: seq<PieRecord>, answers: seq<Response>) {
    && |answers| == |pies|
    && (forall i :: 0 <= i < |pies| ==> pies[i].id.Some?)
    && (forall i :: 0 <= i < |answers| ==> answers[i].status != TooManyRequests)
    && (forall i :: 0 <= i < |answers| ==> answers[i].status == Success ==> DetailName(answers[i].body).Some?)
  }

  /**
   * Answered one detail per listed pie, the lookup returns the first pie whose
   * detail is a 200 naming it, and nothing when no detail does.
   */
  lemma {:induction false} FindPieFirstMatch(name: string, pies: seq<PieRecord>, answers: seq<Response>, tail: seq<Response>)
    requires PlainDetails(pies, answers)
    ensures var x := FindPie(name, pies, answers + tail);
      match FirstNaming(answers, name)
      case Some(i) => x.out == Ok(Some(pies[i]))
      case None => x.out == Ok(None) && x.rest == tail
    decreases |pies|
  {
    if pies != [] {
      var net := answers + tail;
      var m := MakeRequest(FetchPie(pies[0].id.value), PieDelay, net);
      assert net[0] == answers[0];
      assert m.out == Ok(answers[0]) && m.rest == net[1..];
      assert net[1..] == answers[1..] + tail;
      if !Names(answers[0], name) {
        FindPieFirstMatch(name, pies[1..], answers[1..], tail);
      }
    }
  }

  /** The key `random.choice` draws among the `n` keys, from an oracle that returns a number below its argument. */
  ghost predicate IsRandBelow(randbelow: nat -> nat) {
    forall n: nat :: 0 < n ==> randbelow(n) < n
  }

  /**
   * The allocations a run of the update loop sent, starting from `items`: at
   * most as many rounds as keys, the first with the keys of `items`, each a
   * dictionary summing to 1.0, and each losing exactly one key of the one before.
   */
  predicate RunShape(items: Alloc, posted: seq<Alloc>) {
    && |posted| <= |items|
    && (posted != [] ==> Keys(posted[0]) == Keys(items) && |posted[0]| == |items|)
    && (forall i :: 0 <= i < |posted| ==> Total(posted[i]) == Unit && Distinct(posted[i]))
    && (forall i :: 0 <= i < |posted| - 1 ==>
          Keys(posted[i + 1]) < Keys(posted[i]) && |posted[i + 1]| + 1 == |posted[i]|)
  }

  /** A run that stops after its first round. */
  lemma OneRound(items: Alloc, shares: Alloc)
    requires Distinct(items) && KeySeq(shares) == KeySeq(items) && Total(shares) == Unit
    ensures RunShape(items, [shares])
  {
    SameKeySeq(items, shares);
  }

  /** A run that drops `ticker` after its first round and carries on. */
  lemma NextRound(items: Alloc, shares: Alloc, ticker: string, later: seq<Alloc>)
    requires Distinct(items) && KeySeq(shares) == KeySeq(items) && Total(shares) == Unit
    requires ticker in Keys(shares)
    requires Distinct(shares) ==> RunShape(Remove(shares, ticker), later)
    ensures RunShape(items, [shares] + later)
  {
    SameKeySeq(items, shares);
    var next := Remove(shares, ticker);
    var posted := [shares] + later;
    assert |shares| == |items|;
    forall i | 0 <= i < |posted| - 1
      ensures Keys(posted[i + 1]) < Keys(posted[i]) && |posted[i + 1]| + 1 == |posted[i]|
    {
      if i > 0 {
        assert posted[i] == later[i - 1] && posted[i + 1] == later[i];
      }
    }
  }

  /** The record of the update loop: its outcome, the allocation each round sent, and the log. */
  datatype UpdateRun = UpdateRun(out: Result<bool, Fault>, posted: seq<Alloc>, log: seq<Event>, rest: seq<Response>)

  /** The error code of a 400 body, as `response.json().get("code", "")` reads it. */
  function CodeOf(b: Body): Result<string, Fault> {
    match b
    case ErrorCode(code) => Ok(code.GetOr(""))
    case Record(_) => Ok("")
    case _ => Err(MalformedBody)
  }

  /**
   * The `while True` loop of `update_pie_allocations`: rebalance, send, and on
   * a rejection of an instrument that is in the allocation drop it and go again.
   */
  function UpdateLoop(id: string, items: Alloc, net: seq<Response>, randbelow: nat -> nat): (u: UpdateRun)
    requires Distinct(items)
    requires IsRandBelow(randbelow)
    ensures RunShape(items, u.posted)
    ensures u.posted == [] <==> items == [] || Total(items) == 0
    ensures u.posted == [] ==> u.out.Err? && u.log == [] && u.rest == net
    decreases |items|
  {
    match Rebalance(items, randbelow(|items|))
    case Err(e) => UpdateRun(Err(e), [], [], net)
    case Ok(shares) =>
      OneRound(items, shares);
      var m := MakeRequest(UpdatePie(id, shares), PieDelay, net);
      if m.out.Err? then UpdateRun(Err(m.out.error), [shares], m.log, m.rest)
      else
        var r := m.out.value;
        if r.status == Success then UpdateRun(Ok(true), [shares], m.log, m.rest)
        else if r.status != BadRequest then UpdateRun(Ok(false), [shares], m.log, m.rest)
        else match CodeOf(r.body)
          case Err(e) => UpdateRun(Err(e), [shares], m.log, m.rest)
          case Ok(code) =>
            if !Contains(code, RejectedInstrument) then UpdateRun(Ok(false), [shares], m.log, m.rest)
            else match ExtractTicker(code)
              case Some(ticker) =>
                if ticker in Keys(shares) then
                  SameKeySeq(items, shares);
                  var u := UpdateLoop(id, Remove(shares, ticker), m.rest, randbelow);
                  NextRound(items, shares, ticker, u.posted);
                  UpdateRun(u.out, [shares] + u.posted, m.log + u.log, u.rest)
                else UpdateRun(Ok(false), [shares], m.log, m.rest)
              case None => UpdateRun(Ok(false), [shares], m.log, m.rest)
  }

  /** The allocation the first round of the loop sends. */
  function FirstShares(items: Alloc, randbelow: nat -> nat): Result<Alloc, Fault>
    requires IsRandBelow(randbelow)
  {
    Rebalance(items, randbelow(|items|))
  }

  /** The broker rejected instrument `ticker` in its answer `r`. */
  predicate Rejects(r: Response, ticker: string) {
    && r.status == BadRequest
    && CodeOf(r.body).Ok?
    && Contains(CodeOf(r.body).value, RejectedInstrument)
    && ExtractTicker(CodeOf(r.body).value) == Some(ticker)
  }

  /**
   * A rejected instrument that is in the allocation is dropped: the loop goes
   * on over the same dictionary less that key, so its outcome, later
   * allocations, requests and unread answers are those of the smaller loop.
   * The next round sends the same keys less that one, again summing to 1.0,
   * unless nothing with a non-zero total is left to rebalance.
   */
  lemma RejectedTickerDropped(id: string, items: Alloc, net: seq<Response>, randbelow: nat -> nat, ticker: string)
    requires Distinct(items) && IsRandBelow(randbelow)
    requires FirstShares(items, randbelow).Ok?
    requires var m := MakeRequest(UpdatePie(id, FirstShares(items, randbelow).value), PieDelay, net);
      m.out.Ok? && Rejects(m.out.value, ticker)
    requires ticker in Keys(FirstShares(items, randbelow).value)
    ensures var shares := FirstShares(items, randbelow).value;
      var m := MakeRequest(UpdatePie(id, shares), PieDelay, net);
      Distinct(shares) &&
      var later := UpdateLoop(id, Remove(shares, ticker), m.rest, randbelow);
      UpdateLoop(id, items, net, randbelow)
        == UpdateRun(later.out, [shares] + later.posted, m.log + later.log, later.rest)
    ensures var shares := FirstShares(items, randbelow).value;
      var u := UpdateLoop(id, items, net, randbelow);
      && u.posted != [] && u.posted[0] == shares
      && (var next := Remove(shares, ticker);
          next != [] && Total(next) != 0 ==>
            |u.posted| >= 2 && Keys(u.posted[1]) == Keys(shares) - {ticker} && Total(u.posted[1]) == Unit)
  {
    var shares := FirstShares(items, randbelow).value;
    SameKeySeq(items, shares);
    var m := MakeRequest(UpdatePie(id, shares), PieDelay, net);
    var later := UpdateLoop(id, Remove(shares, ticker), m.rest, randbelow);
    DropUnfolds(id, items, net, randbelow, ticker);
    NextRoundSends(shares, ticker, later.posted);
  }

  /** One step of the loop after a rejection of a held instrument: send, drop, go again. */
  lemma DropUnfolds(id: string, items: Alloc, net: seq<Response>, randbelow: nat -> nat, ticker: string)
    requires Distinct(items) && IsRandBelow(randbelow)
    requires FirstShares(items, randbelow).Ok?
    requires var m := MakeRequest(UpdatePie(id, FirstShares(items, randbelow).value), PieDelay, net);
      m.out.Ok? && Rejects(m.out.value, ticker)
    requires ticker in Keys(FirstShares(items, randbelow).value)
    ensures var shares := FirstShares(items, randbelow).value;
      var m := MakeRequest(UpdatePie(id, shares), PieDelay, net);
      Distinct(shares) &&
      var later := UpdateLoop(id, Remove(shares, ticker), m.rest, randbelow);
      UpdateLoop(id, items, net, randbelow)
        == UpdateRun(later.out, [shares] + later.posted, m.log + later.log, later.rest)
  {
    SameKeySeq(items, FirstShares(items, randbelow).value);
  }

  /** The round after a drop, when there is one, sends the remaining keys summing to 1.0. */
  lemma NextRoundSends(shares: Alloc, ticker: string, posted: seq<Alloc>)
    requires Distinct(shares)
    requires RunShape(Remove(shares, ticker), posted)
    requires posted == [] <==> Remove(shares, ticker) == [] || Total(Remove(shares, ticker)) == 0
    ensures var next := Remove(shares, ticker);
      next != [] && Total(next) != 0 ==>
        |posted| >= 1 && Keys(posted[0]) == Keys(shares) - {ticker} && Total(posted[0]) == Unit
  {
  }

  /**
   * A round ends the loop when the broker accepts (true), refuses for any
   * other reason (false), or rejects an instrument the allocation does not
   * hold (false); in each case no further request is made.
   */
  lemma RoundEnds(id: string, items: Alloc, net: seq<Response>, randbelow: nat -> nat)
    requires Distinct(items) && IsRandBelow(randbelow)
    requires FirstShares(items, randbelow).Ok?
    requires MakeRequest(UpdatePie(id, FirstShares(items, randbelow).value), PieDelay, net).out.Ok?
    ensures var shares := FirstShares(items, randbelow).value;
      var m := MakeRequest(UpdatePie(id, shares), PieDelay, net);
      var r := m.out.value;
      var u := UpdateLoop(id, items, net, randbelow);
      && (r.status == Success ==> u == UpdateRun(Ok(true), [shares], m.log, m.rest))
      && (r.status != Success && r.status != BadRequest ==> u == UpdateRun(Ok(false), [shares], m.log, m.rest))
      && (r.status == BadRequest && CodeOf(r.body).Ok? && !Contains(CodeOf(r.body).value, RejectedInstrument) ==>
            u == UpdateRun(Ok(false), [shares], m.log, m.rest))
      && (forall t :: Rejects(r, t) && t !in Keys(shares) ==> u == UpdateRun(Ok(false), [shares], m.log, m.rest))
      && ((r.status == BadRequest && CodeOf(r.body).Ok? && Contains(CodeOf(r.body).value, RejectedInstrument)
           && ExtractTicker(CodeOf(r.body).value).None?) ==> u == UpdateRun(Ok(false), [shares], m.log, m.rest))
  {
  }

  /** `update_pie_allocations`: build the raw allocation from the holdings and run the loop. */
  function UpdateAllocations(id: string, holdings: seq<Holding>, net: seq<Response>, randbelow: nat -> nat): (u: UpdateRun)
    requires IsRandBelow(randbelow)
    ensures RunShape(BuildItems(holdings), u.posted)
    ensures u.posted != [] ==> Keys(u.posted[0]) == KeysOf(holdings)
    ensures |u.posted| <= |KeysOf(holdings)|
  {
    var items := BuildItems(holdings);
    DistinctKeysCount(items);
    UpdateLoop(id, items, net, randbelow)
  }

  /** A dictionary has as many entries as keys. */
  lemma {:induction false} DistinctKeysCount(a: Alloc)
    requires Distinct(a)
    ensures |Keys(a)| == |a|
  {
    if a != [] {
      DistinctKeysCount(a[1..]);
      assert Keys(a) == {a[0].key} + Keys(a[1..]);
      assert a[0].key !in Keys(a[1..]);
    }
  }

  /**
   * The id the sync addresses: `id` when present, otherwise `settings.id`.
   * Without a settings object `pie.get("settings").get("id")` raises.
   */
  function ResolvePieId(pie: PieRecord): (r: Result<string, Fault>)
    ensures pie.id.Some? ==> r == Ok(pie.id.value)
    ensures pie.id.None? && pie.settings.None? ==> r == Err(AttributeError)
    ensures pie.id.None? && pie.settings.Some? ==> r == Ok(pie.settings.value.id.GetOr(NoneText))
  {
    if pie.id.Some? then Ok(pie.id.value)
    else if pie.settings.None? then Err(AttributeError)
    else Ok(pie.settings.value.id.GetOr(NoneText))
  }

  /** `sync_pie_with_holdings`: find or create the pie, then update its allocation. */
  function SyncPieWithHoldings(name: string, holdings: seq<Holding>, net: seq<Response>, randbelow: nat -> nat): (x: Exchange<bool>)
    requires IsRandBelow(randbelow)
    ensures var pie := GetOrCreatePie(name, net);
      && (pie.out == Ok(None) ==> x.out == Ok(false) && x.log == pie.log && x.rest == pie.rest)
      && (pie.out.Err? ==> x.out == Err(pie.out.error) && x.log == pie.log && x.rest == pie.rest)
      && (pie.out.Ok? && pie.out.value.Some? && pie.out.value.value.IsEmpty() ==>
            x.out == Ok(false) && x.log == pie.log && x.rest == pie.rest)
      && (pie.out.Ok? && pie.out.value.Some? && !pie.out.value.value.IsEmpty() ==>
            match ResolvePieId(pie.out.value.value)
            case Err(e) => x.out == Err(e) && x.log == pie.log && x.rest == pie.rest
            case Ok(id) =>
              var u := UpdateAllocations(id, holdings, pie.rest, randbelow);
              x.out == u.out && x.log == pie.log + u.log && x.rest == u.rest)
  {
    var pie := GetOrCreatePie(name, net);
    if pie.out.Err? then Fail(pie)
    else match pie.out.value
      case None => Exchange(Ok(false), pie.log, pie.rest)
      case Some(record) =>
        // `if not pie`: an empty JSON object is false
        if record.IsEmpty() then Exchange(Ok(false), pie.log, pie.rest)
        else match ResolvePieId(record)
        case Err(e) => Exchange(Err(e), pie.log, pie.rest)
        case Ok(id) =>
          var u := UpdateAllocations(id, holdings, pie.rest, randbelow);
          Exchange(u.out, pie.log + u.log, u.rest)
  }

  /**
   * Holdings META 60% and AAPL 40% synced to a pie "Growth" the account does
   * not have yet: the pie is created and receives FB 0.6 and AAPL 0.4,
   * whatever the random choice would pick.
   */
  lemma GrowthScenario(holdings: seq<Holding>, net: seq<Response>, randbelow: nat -> nat)
    requires holdings == [Holding("META", 600000), Holding("AAPL", 400000)]
    requires net == [Response(Success, PieList([])), Response(Success, Record(PieRecord(Some("42"), None, true))), Response(Success, Unparsed)]
    requires IsRandBelow(randbelow)
    ensures var x := SyncPieWithHoldings("Growth", holdings, net, randbelow);
      && x.out == Ok(true)
      && x.log == [Send(ListPies), Send(CreatePie("Growth")),
                   Send(UpdatePie("42", [Share("FB_US_EQ", 6000), Share("AAPL_US_EQ", 4000)]))]
      && x.rest == []
  {
    var shares := [Share("FB_US_EQ", 6000), Share("AAPL_US_EQ", 4000)];
    CreatedWhenUnlisted("Growth", PieRecord(Some("42"), None, true), net);
    assert net[2..] == [Response(Success, Unparsed)];
    GrowthUpdate(holdings, randbelow);
    LookupThenUpdate(Send(ListPies), Send(CreatePie("Growth")), Send(UpdatePie("42", shares)));
  }

  /** The sync's log as the lookup's two requests followed by the update's one. */
  lemma LookupThenUpdate(list: Event, create: Event, update: Event)
    ensures [list, create] + [update] == [list, create, update]
  {
  }

  /** The update round: the rebalanced holdings are accepted at once. */
  lemma GrowthUpdate(holdings: seq<Holding>, randbelow: nat -> nat)
    requires holdings == [Holding("META", 600000), Holding("AAPL", 400000)]
    requires IsRandBelow(randbelow)
    ensures var shares := [Share("FB_US_EQ", 6000), Share("AAPL_US_EQ", 4000)];
      UpdateAllocations("42", holdings, [Response(Success, Unparsed)], randbelow)
        == UpdateRun(Ok(true), [shares], [Send(UpdatePie("42", shares))], [])
  {
    GrowthItems(holdings);
    var items := BuildItems(holdings);
    var shares := [Share("FB_US_EQ", 6000), Share("AAPL_US_EQ", 4000)];
    GrowthShares(randbelow(|items|));
    GrowthPosted(shares);
    AcceptedAtOnce("42", items, [Response(Success, Unparsed)], randbelow, shares);
  }

  /** A first allocation answered 200 ends the loop after one request. */
  lemma AcceptedAtOnce(id: string, items: Alloc, net: seq<Response>, randbelow: nat -> nat, shares: Alloc)
    requires Distinct(items) && IsRandBelow(randbelow)
    requires Rebalance(items, randbelow(|items|)) == Ok(shares)
    requires MakeRequest(UpdatePie(id, shares), PieDelay, net).out.Ok?
    requires MakeRequest(UpdatePie(id, shares), PieDelay, net).out.value.status == Success
    ensures var m := MakeRequest(UpdatePie(id, shares), PieDelay, net);
      UpdateLoop(id, items, net, randbelow) == UpdateRun(Ok(true), [shares], m.log, m.rest)
  {
  }

  /** The update request is answered 200 at the first attempt. */
  lemma GrowthPosted(shares: Alloc)
    ensures MakeRequest(UpdatePie("42", shares), PieDelay, [Response(Success, Unparsed)])
         == Exchange(Ok(Response(Success, Unparsed)), [Send(UpdatePie("42", shares))], [])
  {
    var net := [Response(Success, Unparsed)];
    assert net[1..] == [];
  }

  /** With no pie listed, the pie is created and the created record comes back. */
  lemma CreatedWhenUnlisted(name: string, record: PieRecord, net: seq<Response>)
    requires |net| >= 2 && net[0] == Response(Success, PieList([])) && net[1] == Response(Success, Record(record))
    ensures GetOrCreatePie(name, net)
         == Exchange(Ok(Some(record)), [Send(ListPies), Send(CreatePie(name))], net[2..])
  {
    var listed := GetExistingPies(net);
    assert listed == Exchange(Ok([]), [Send(ListPies)], net[1..]);
    var created := CreatePieResult(name, net[1..]);
    assert net[1..][1..] == net[2..];
    assert created == Exchange(Ok(Some(record)), [Send(CreatePie(name))], net[2..]);
  }

  /**
   * A created pie whose body is the empty object `{}` is false for
   * `if not pie`: the sync returns false and sends no update.
   */
  lemma EmptyCreatedSyncsNothing(holdings: seq<Holding>, net: seq<Response>, randbelow: nat -> nat)
    requires net == [Response(Success, PieList([])), Response(Success, Record(PieRecord(None, None, false)))]
    requires IsRandBelow(randbelow)
    ensures var x := SyncPieWithHoldings("Growth", holdings, net, randbelow);
      x.out == Ok(false) && x.log == [Send(ListPies), Send(CreatePie("Growth"))] && x.rest == []
  {
    CreatedWhenUnlisted("Growth", PieRecord(None, None, false), net);
  }

  /** The raw dictionary of the holdings: META renamed to FB, both with their raw weights. */
  lemma GrowthItems(holdings: seq<Holding>)
    requires holdings == [Holding("META", 600000), Holding("AAPL", 400000)]
    ensures BuildItems(holdings) == [Share("FB_US_EQ", 600000), Share("AAPL_US_EQ", 400000)]
  {
    assert KeyOf(holdings[1]) == "AAPL_US_EQ";
    assert KeyOf(holdings[0]) == "FB_US_EQ";
    assert holdings[..1][..0] == [];
    assert BuildItems(holdings[..1]) == [Share("FB_US_EQ", 600000)];
  }

  /** Normalising 60 and 40 leaves no residual, so the pick does not matter. */
  lemma GrowthShares(pick: nat)
    requires pick < 2
    ensures Rebalance([Share("FB_US_EQ", 600000), Share("AAPL_US_EQ", 400000)], pick)
         == Ok([Share("FB_US_EQ", 6000), Share("AAPL_US_EQ", 4000)])
  {
    var items := [Share("FB_US_EQ", 600000), Share("AAPL_US_EQ", 400000)];
    assert items[1..][1..] == [];
    assert Total(items) == 1000000;
    RoundUnique(600000 * Unit, 1000000, 6000);
    RoundUnique(400000 * Unit, 1000000, 4000);
    var shares := [Share("FB_US_EQ", 6000), Share("AAPL_US_EQ", 4000)];
    assert Scale(items, 1000000) == shares;
    assert shares[1..][1..] == [];
    assert Total(shares) == Unit;
  }
}

=== FILE: symbols.dfy ===
/**
 * The first half of `update_pie_allocations`: rename the tracker's symbols the
 * broker knows under another ticker, append the exchange suffix, and collect
 * the raw weights into a dictionary keyed by instrument.
 */
module Symbols {
  import opened Wrappers
  import opened Allocation

  /** The exchange suffix of every instrument key. */
  const Suffix: string := "_US_EQ"

  /** The renamings: mergers, rebrands and delistings the broker still lists under the old ticker. */
  const Overrides: map<string, string> := map[
    "META" := "FB", "HHH" := "HHC", "BN" := "BAM", "MAGN" := "GLT", "PARA" := "CBS",
    "KIND" := "KVSB", "AXON" := "AAXN", "DKNG" := "DEAC", "UAA" := "UA", "RUM" := "CFVI"]

  /** One tracker holding; the fields the allocator reads. */
  datatype Holding = Holding(symbol: string, percentOfPortfolio: int)

  /** The broker's ticker for a tracker symbol. */
  function MapSymbol(symbol: string): (r: string)
    ensures symbol in Overrides ==> r == Overrides[symbol]
    ensures symbol !in Overrides ==> r == symbol
  {
    if symbol == "META" then "FB"
    else if symbol == "HHH" then "HHC"
    else if symbol == "BN" then "BAM"
    else if symbol == "MAGN" then "GLT"
    else if symbol == "PARA" then "CBS"
    else if symbol == "KIND" then "KVSB"
    else if symbol == "AXON" then "AAXN"
    else if symbol == "DKNG" then "DEAC"
    else if symbol == "UAA" then "UA"
    else if symbol == "RUM" then "CFVI"
    else symbol
  }

  /** The instrument key a holding is filed under. */
  function KeyOf(h: Holding): string {
    MapSymbol(h.symbol) + Suffix
  }

  /** Holding `j` is the last one filed under its key. */
  predicate IsLastFor(hs: seq<Holding>, j: int)
    requires 0 <= j < |hs|
  {
    forall j' :: j < j' < |hs| ==> KeyOf(hs[j']) != KeyOf(hs[j])
  }

  /** Every key holds the weight of the last holding filed under it. */
  predicate LastWins(hs: seq<Holding>, r: Alloc) {
    forall j :: 0 <= j < |hs| && IsLastFor(hs, j) ==> Lookup(r, KeyOf(hs[j])) == Some(hs[j].percentOfPortfolio)
  }

  /**
   * The raw dictionary: one entry per instrument key, holding the weight of
   * the last holding filed under that key.
   */
  function BuildItems(hs: seq<Holding>): (r: Alloc)
    ensures Distinct(r)
    ensures Keys(r) == KeysOf(hs)
    ensures LastWins(hs, r)
    decreases |hs|
  {
    if hs == [] then []
    else
      var prior := BuildItems(hs[..|hs| - 1]);
      BuildStep(hs, prior);
      Put(prior, KeyOf(hs[|hs| - 1]), hs[|hs| - 1].percentOfPortfolio)
  }

  /** The instrument keys of a list of holdings. */
  function KeysOf(hs: seq<Holding>): set<string> {
    set h | h in hs :: KeyOf(h)
  }

  /** Writing the last holding over the dictionary built from the others. */
  lemma BuildStep(hs: seq<Holding>, prior: Alloc)
    requires hs != [] && Distinct(prior)
    requires Keys(prior) == KeysOf(hs[..|hs| - 1])
    requires LastWins(hs[..|hs| - 1], prior)
    ensures var r := Put(prior, KeyOf(hs[|hs| - 1]), hs[|hs| - 1].percentOfPortfolio);
      Distinct(r) && Keys(r) == KeysOf(hs) && LastWins(hs, r)
  {
    var init := hs[..|hs| - 1];
    var h := hs[|hs| - 1];
    var r := Put(prior, KeyOf(h), h.percentOfPortfolio);
    assert init + [h] == hs;
    KeysOfSnoc(init, h);
    forall j | 0 <= j < |hs| && IsLastFor(hs, j)
      ensures Lookup(r, KeyOf(hs[j])) == Some(hs[j].percentOfPortfolio)
    {
      LastWinsAt(hs, prior, j);
    }
  }

  /** The holding last for its key is the one whose weight the key ends up with. */
  lemma LastWinsAt(hs: seq<Holding>, prior: Alloc, j: nat)
    requires hs != [] && Distinct(prior) && LastWins(hs[..|hs| - 1], prior)
    requires j < |hs| && IsLastFor(hs, j)
    ensures Lookup(Put(prior, KeyOf(hs[|hs| - 1]), hs[|hs| - 1].percentOfPortfolio), KeyOf(hs[j]))
         == Some(hs[j].percentOfPortfolio)
  {
    if j < |hs| - 1 {
      LastInPrefix(hs, j);
    }
  }

  /** A holding last for its key, but not the final one, is last for its key among the others too. */
  lemma LastInPrefix(hs: seq<Holding>, j: nat)
    requires j < |hs| - 1 && IsLastFor(hs, j)
    ensures KeyOf(hs[|hs| - 1]) != KeyOf(hs[j])
    ensures hs[..|hs| - 1][j] == hs[j] && IsLastFor(hs[..|hs| - 1], j)
  {
    var init := hs[..|hs| - 1];
    assert forall j' :: j < j' < |init| ==> init[j'] == hs[j'];
  }

  lemma KeysOfSnoc(init: seq<Holding>, h: Holding)
    ensures KeysOf(init + [h]) == KeysOf(init) + {KeyOf(h)}
  {
    var hs := init + [h];
    forall k | k in KeysOf(hs) ensures k in KeysOf(init) + {KeyOf(h)} {
      var g :| g in hs && KeyOf(g) == k;
      if g != h {
        assert g in init;
      }
    }
  }

  /** Symbol rewriting examples: a renamed symbol and one passed through. */
  lemma MapSymbolExamples()
    ensures MapSymbol("META") == "FB" && MapSymbol("AAPL") == "AAPL"
    ensures KeyOf(Holding("HHH", 0)) == "HHC_US_EQ"
  {
  }
}

=== FILE: tickertext.dfy ===
/**
 * The text handling of the retry loop: the substring test on the broker's
 * error code and `extract_ticker`, the regular expression `ticker (\S+)`
 * applied with `re.search`.
 */
module TickerText {
  import opened Wrappers

  /** The literal part of the pattern: the word and the one space after it. */
  const Marker: string := "ticker "

  /** Python's `str.isspace`, which is what `\s` matches in a text pattern. */
  predicate IsSpace(c: char) {
    || c == ' '
    || '\t' <= c <= '\r'
    || '\U{1c}' <= c <= '\U{1f}'
    || c == '\U{85}' || c == '\U{a0}' || c == '\U{1680}'
    || '\U{2000}' <= c <= '\U{200a}'
    || c == '\U{2028}' || c == '\U{2029}' || c == '\U{202f}' || c == '\U{205f}' || c == '\U{3000}'
  }

  /** `sub` occurs in `s` starting at index `i`. */
  predicate OccursAt(s: string, sub: string, i: int) {
    0 <= i && i + |sub| <= |s| && s[i..i + |sub|] == sub
  }

  /** Python's `sub in s`. */
  function Contains(s: string, sub: string): (b: bool)
    ensures b <==> exists i :: OccursAt(s, sub, i)
  {
    ContainsFrom(s, sub, 0)
  }

  function ContainsFrom(s: string, sub: string, from: nat): (b: bool)
    requires from <= |s|
    ensures b <==> exists i :: from <= i && OccursAt(s, sub, i)
    decreases |s| - from
  {
    if OccursAt(s, sub, from) then true
    else if from == |s| then false
    else ContainsFrom(s, sub, from + 1)
  }

  /** The pattern matches at `i`: the marker, then at least one non-space character. */
  predicate MatchAt(s: string, i: int) {
    OccursAt(s, Marker, i) && i + |Marker| < |s| && !IsSpace(s[i + |Marker|])
  }

  /** `i` is where `re.search` reports its match: the leftmost position that matches. */
  predicate Leftmost(s: string, i: int) {
    MatchAt(s, i) && forall k :: 0 <= k < i ==> !MatchAt(s, k)
  }

  /** A captured group `\S+`: non-empty, no whitespace. */
  predicate IsToken(t: string) {
    |t| > 0 && forall c :: c in t ==> !IsSpace(c)
  }

  /** `t` occurs at `j` and cannot be extended: the text ends or whitespace follows. */
  predicate TokenAt(s: string, j: int, t: string) {
    OccursAt(s, t, j) && (j + |t| == |s| || IsSpace(s[j + |t|]))
  }

  /** The leftmost match at or after `from`. */
  function FirstMatch(s: string, from: nat): (r: Option<nat>)
    requires from <= |s|
    ensures r.Some? ==> from <= r.value < |s| && MatchAt(s, r.value)
    ensures r.Some? ==> forall k :: from <= k < r.value ==> !MatchAt(s, k)
    ensures r.None? ==> forall k :: from <= k ==> !MatchAt(s, k)
    decreases |s| - from
  {
    if from == |s| then None
    else if MatchAt(s, from) then Some(from)
    else FirstMatch(s, from + 1)
  }

  /** The end of the run of non-space characters that starts at `j`. */
  function TokenEnd(s: string, j: nat): (e: nat)
    requires j <= |s|
    ensures j <= e <= |s|
    ensures forall k :: j <= k < e ==> !IsSpace(s[k])
    ensures e == |s| || IsSpace(s[e])
    decreases |s| - j
  {
    if j == |s| || IsSpace(s[j]) then j else TokenEnd(s, j + 1)
  }

  /**
   * `extract_ticker`: the group captured by the leftmost match of
   * `ticker (\S+)`, or nothing when the pattern matches nowhere.
   */
  function ExtractTicker(s: string): (r: Option<string>)
    ensures r.None? <==> forall i :: 0 <= i < |s| ==> !MatchAt(s, i)
    ensures r.Some? ==> IsToken(r.value)
    ensures r.Some? ==> exists i :: Leftmost(s, i) && TokenAt(s, i + |Marker|, r.value)
  {
    match FirstMatch(s, 0)
    case None => None
    case Some(i) =>
      var j := i + |Marker|;
      var e := TokenEnd(s, j);
      var t := s[j..e];
      assert forall c :: c in t ==> !IsSpace(c) by {
        forall c | c in t ensures !IsSpace(c) {
          var k :| 0 <= k < |t| && t[k] == c;
          assert t[k] == s[j + k];
        }
      }
      assert s[j..j + |t|] == t;
      assert Leftmost(s, i) && TokenAt(s, j, t);
      Some(t)
  }

  /** Every token that follows the leftmost match is what `ExtractTicker` returns. */
  lemma ExtractTickerUnique(s: string, i: int, t: string)
    requires Leftmost(s, i) && IsToken(t) && TokenAt(s, i + |Marker|, t)
    ensures ExtractTicker(s) == Some(t)
  {
    var j := i + |Marker|;
    var f := FirstMatch(s, 0);
    assert f == Some(i);
    var e := TokenEnd(s, j);
    assert forall k :: j <= k < j + |t| ==> !IsSpace(s[k]) by {
      forall k | j <= k < j + |t| ensures !IsSpace(s[k]) {
        assert s[k] == t[k - j];
        assert t[k - j] in t;
      }
    }
    assert e == j + |t|;
    assert s[j..e] == t;
  }

  /** A piece of a concatenation occurs where the concatenation puts it. */
  lemma OccursInConcat(p: string, m: string, q: string)
    ensures OccursAt(p + m + q, m, |p|)
  {
    var s := p + m + q;
    assert forall k :: 0 <= k < |m| ==> s[|p|..|p| + |m|][k] == s[|p| + k] == m[k];
  }

  /** The broker's rejection message yields the rejected instrument key. */
  lemma ExtractTickerExample()
    ensures ExtractTicker("Instrument with " + "ticker " + "XYZ_US_EQ" + " not supported") == Some("XYZ_US_EQ")
  {
    var p := "Instrument with ";
    var t := "XYZ_US_EQ";
    var s := p + Marker + t + " not supported";
    OccursInConcat(p, Marker, t + " not supported");
    assert p + Marker + t + " not supported" == p + Marker + (t + " not supported");
    assert Leftmost(s, 16) by {
      forall k | 0 <= k < 16 ensures !MatchAt(s, k) {
        assert s[k] != 't' || s[k + 1] != 'i';
        assert s[k..k + 7][0] == s[k] && s[k..k + 7][1] == s[k + 1];
      }
    }
    OccursInConcat(p + Marker, t, " not supported");
    assert TokenAt(s, 23, t);
    ExtractTickerUnique(s, 16, t);
  }

  /** A marker followed by a second space is no match, so no ticker is found. */
  lemma ExtractTickerNeedsToken(u: string)
    requires u == "ticker  XYZ"
    ensures ExtractTicker(u) == None
  {
    assert u[7] == ' ';
    forall k | 0 < k && k + |Marker| <= |u| ensures !OccursAt(u, Marker, k) {
      assert u[k..k + |Marker|][0] == u[k];
    }
  }
}

=== FILE: wrappers.dfy ===
/** Optional values, and the outcome of a computation that can fail. */
module Wrappers {

  /** A value that may be absent: Python's `None` or a present value. */
  datatype Option<+T> = None | Some(value: T) {

    /** The value, or `default` when absent (Python's `d.get(key, default)`). */
    function GetOr(default: T): T {
      match this
      case Some(v) => v
      case None => default
    }
  }

  /** The outcome of a computation that can raise instead of returning. */
  datatype Result<+T, +E> = Ok(value: T) | Err(error: E)
}

/** The exceptions the allocator lets escape to its caller, named after the Python exception that would be raised. */
module Faults {

  datatype Fault =
      /** Normalising a non-empty allocation whose weights sum to zero. */
    | ZeroDivisionError
      /** Picking the key for the rounding residual out of an empty allocation. */
    | IndexError
      /** The broker did not answer a request at all (connection failure). */
    | TransportError
      /** A response body of the wrong shape: a missing field the code indexes, or JSON of the wrong type. */
    | MalformedBody
      /** A created pie record that is not empty yet has neither an "id" nor a "settings" field. */
    | AttributeError
}
